=== FILE: README.md ===
# Weapon fire control and ammunition, modelled in Dafny

This project models the fire-control core of the first-person weapon actor of
MultiShootGame (`AMultiShootGameWeapon`). It covers four parts:

- **Ammunition bookkeeping** (module `Ammunition`, `ammunition.dfy`). Two
  counters: `BulletNumber` (rounds loaded) and `MaxBulletNumber` (rounds in
  reserve). Three rules act on them. `BulletCheck` is the "no ammunition at
  all" guard. `BulletFire` spends one round or asks the holder to reload.
  `BulletReload` moves rounds from the reserve into the magazine, by one of
  four branches, with `PerBulletNumber` as the per-reload amount.
- **Fire timing** (module `FireTiming`, `timing.dfy`). This covers the
  interval `TimeBetweenShots = 60 / RateOfFire` computed in `BeginPlay`, the
  first delay `StartFire` arms the repeating timer with, the timer's schedule
  up to `StopFire`, and the time gate of `FireOfDelay`.
- **The `Fire` call as a pure step** (module `Weapon`, `weapon.dfy`). It maps
  the weapon state (counters and `LastFireTime`), the weapon's configuration,
  what the engine reports at that moment (the holder, if any, and the randomly
  spread shot direction) and the world time to a new state. It also returns
  the ordered list of effects the call triggers: FPS-sight turn, muzzle
  flash, projectile, shell, camera kick, camera shake, reload request, fire
  sound. `FireOfDelay` is modelled as that step behind its time gate.
- **The weapon over time** (module `Sessions`, `sessions.dfy`). A trigger hold
  runs `Fire` at the due times of the repeating timer. Repeated holds chain
  these runs. A separate history interleaves shots with completed reloads.

Times are `real` seconds. This idealises the engine's single-precision
`float` world time, and no rounding is modelled. The counters are unbounded
`int`s.

The main results:

- `BulletReload` conserves `BulletNumber + MaxBulletNumber` in every branch.
  It keeps valid counters non-negative. It empties the reserve only in its
  drain branch.
- Reload can push the magazine past `PerBulletNumber`, and it can also pull it
  down to `PerBulletNumber`. Both outcomes are characterised exactly.
- `Fire` is blocked only when both counters are zero. A blocked or holderless
  call changes nothing and emits nothing. On a completed shot, every effect is
  emitted exactly under its own condition, in a fixed order, with the fire
  sound last.
- The first delay is the least non-negative delay that keeps the first shot
  at least `TimeBetweenShots` after the previous shot. Completed shots are
  never closer together than `TimeBetweenShots`, however often the trigger is
  pressed and released, on the schedule the timer is modelled with (calls at
  exactly their due times).
- After a shot completed at a non-zero time, `FireOfDelay` does nothing until
  strictly more than `DelayOfShotgun` seconds have passed.

### A reload can lower the magazine

`Source/MultiShootGame/Weapon/MultiShootGameWeapon.cpp` lines 260–264 handle
a reserve of at most `PerBulletNumber` when loaded plus reserve is more than
`PerBulletNumber`. That branch sets the magazine to exactly `PerBulletNumber`,
even when it held more, and the difference goes back into the reserve. For
example, with 40 loaded, 10 in reserve and 30 per reload, the result is 30
loaded and 20 in reserve. The model follows this (`Ammunition.ReloadClampDown`,
`Ammunition.ReloadExamples`).

### A shot at world time 0

`LastFireTime == 0` stands for "never fired" in `FireOfDelay`. A shot completed
at world time 0 is therefore indistinguishable from no shot, and it leaves the
gate open (`Weapon.DelayedFireAtTimeZero`).

## Model

| member | source | states |
|---|---|---|
| Ammunition.BulletCheck | Source/MultiShootGame/Weapon/MultiShootGameWeapon.cpp:220-228 | Blocks firing only when the weapon owns no round at all. For valid counters: blocked iff loaded + reserve is 0. |
| Ammunition.BulletFire | Source/MultiShootGame/Weapon/MultiShootGameWeapon.cpp:230-240 | With loaded > 0, spends exactly one round, leaves the reserve alone and never goes negative. With loaded <= 0, changes nothing and requests a reload. The total owned drops by exactly the rounds spent. |
| Ammunition.BulletReload | Source/MultiShootGame/Weapon/MultiShootGameWeapon.cpp:242-272 | Conserves loaded + reserve in every branch. Valid counters with per >= 0 stay valid. The reserve ends at 0 iff the drain branch ran. Afterwards loaded >= per or the reserve is empty. |
| Ammunition.ReloadNormalForm | Source/MultiShootGame/Weapon/MultiShootGameWeapon.cpp:244-271 | Gives an independent, unnested statement of the rule for valid counters. It adds per when loaded >= per < reserve. Otherwise it sets loaded to per when the total exceeds per, and drains the reserve when it does not. |
| Ammunition.ReloadOverfill | Source/MultiShootGame/Weapon/MultiShootGameWeapon.cpp:252-256 | The magazine ends above per exactly when the full-add branch ran on a non-empty magazine. Then loaded was already >= per and the reserve was > per. |
| Ammunition.ReloadClampDown | Source/MultiShootGame/Weapon/MultiShootGameWeapon.cpp:260-264 | A reload lowers the magazine iff the second top-up branch ran with loaded > per. The excess returns to the reserve. |
| Ammunition.ReloadExamples | Source/MultiShootGame/Weapon/MultiShootGameWeapon.cpp:242-272 | Worked values: (5,100)->(30,75), (5,20)->(25,0), (30,100)->(60,70) overfill, and (40,10)->(30,20) clamp-down, with per 30. |
| FireTiming.TimeBetweenShots | Source/MultiShootGame/Weapon/MultiShootGameWeapon.cpp:57 | For a positive rate of fire the interval is positive, and rate intervals add up to exactly 60 seconds. |
| FireTiming.FirstDelay | Source/MultiShootGame/Weapon/MultiShootGameWeapon.cpp:160 | The delay is >= 0. The first shot at now + delay is at least the interval after the last shot. The delay is either 0 or exactly the remaining wait. |
| FireTiming.FirstDelayLeast | Source/MultiShootGame/Weapon/MultiShootGameWeapon.cpp:160 | No non-negative delay that respects the spacing is shorter than the first delay. |
| FireTiming.TimerShots | Source/MultiShootGame/Weapon/MultiShootGameWeapon.cpp:162-168 | The repeating timer's shots are first + k * interval, all before the clear time. No due time before the clear time is missing. |
| FireTiming.StartFireSpaced | Source/MultiShootGame/Weapon/MultiShootGameWeapon.cpp:158-164 | The timer armed by `StartFire` shoots no sooner than the interval after the last shot. No two of its shots are closer than the interval. |
| FireTiming.StopBeforeFirstShot | Source/MultiShootGame/Weapon/MultiShootGameWeapon.cpp:158-169 | `StopFire` before the first delay elapses leaves no shot. |
| FireTiming.DelayGateOpen | Source/MultiShootGame/Weapon/MultiShootGameWeapon.cpp:173-182 | The gate is always open when the last fire time is 0. Otherwise it is open iff strictly more than the delay has elapsed. |
| FireTiming.TimingExamples | Source/MultiShootGame/Weapon/MultiShootGameWeapon.cpp:160 | Worked values: 600 rounds per minute gives 0.1 s. Last shot 9.95 and now 10.0 give a first delay of 0.05. A long-past last shot gives 0. |
| Weapon.Fire | Source/MultiShootGame/Weapon/MultiShootGameWeapon.cpp:80-156 | A blocked or holderless call is idle. A completed call sets `LastFireTime` to now, keeps the reserve, and lowers the owned total by one exactly when the magazine was non-empty. Valid counters stay valid. |
| Weapon.FireBlocked | Source/MultiShootGame/Weapon/MultiShootGameWeapon.cpp:82-89 | A call completes iff there is a holder and not both counters are 0. Otherwise no effect is emitted and neither the counters nor `LastFireTime` change. |
| Weapon.FireEffectGating | Source/MultiShootGame/Weapon/MultiShootGameWeapon.cpp:60-156 | On a completed shot each effect is emitted exactly under its own condition. The sight turn needs the FPS-camera variant, the muzzle flash a muzzle effect, and the projectile a projectile class. The shell needs mode != SecondWeapon and a shell class, and the camera kick needs MainWeapon mode. The camera shake needs a player controller, and the reload request an empty magazine. The fire sound is always emitted. |
| Weapon.FireEffectOrder | Source/MultiShootGame/Weapon/MultiShootGameWeapon.cpp:112-152 | The effects of a completed shot come in the source's order, each kind at most once, with the fire sound last. So the reload request follows every spawn effect. |
| Weapon.FireProjectileAim | Source/MultiShootGame/Weapon/MultiShootGameWeapon.cpp:94-134 | The projectile aims at the point 3000 units along the sampled direction from the sight camera when aiming (the body camera otherwise), and carries the configured base damage. |
| Weapon.FireSightTurn | Source/MultiShootGame/Weapon/MultiShootGameWeapon.cpp:109-118 | The FPS sight turns to look from the holder's current eye at the trace end, 3000 units along the sampled direction. |
| Weapon.FireCameraKick | Source/MultiShootGame/Weapon/MultiShootGameWeapon.cpp:65-69 | The camera kick carries the bounds of the random inputs: yaw within plus or minus `CameraSpread`, pitch the negation of a draw from `-CameraSpreadDown` to `CameraSpread`. |
| Weapon.FireOnEmptyMagazine | Source/MultiShootGame/Weapon/MultiShootGameWeapon.cpp:148-154 | With 0 loaded and reserve > 0, the shot still completes and emits its sound. It requests a reload, spends nothing and records the fire time. |
| Weapon.FireOfDelay | Source/MultiShootGame/Weapon/MultiShootGameWeapon.cpp:171-186 | With last fire time 0 it behaves as `Fire`. Otherwise it behaves as `Fire` when strictly more than `DelayOfShotgun` has elapsed, and is idle when not. |
| Weapon.DelayedFireSpacing | Source/MultiShootGame/Weapon/MultiShootGameWeapon.cpp:171-186 | After a shot completed at a non-zero t1, a call at t2 with t2 - t1 <= `DelayOfShotgun` is idle, whatever the engine reports. |
| Weapon.DelayedFireAtTimeZero | Source/MultiShootGame/Weapon/MultiShootGameWeapon.cpp:173-178 | After a shot completed at world time 0, the next `FireOfDelay` fires regardless of the delay. |
| Sessions.Call | Source/MultiShootGame/Weapon/MultiShootGameWeapon.cpp:80-156 | One timer call records its time exactly when it gets past both guards of `Fire`. A completed call takes a round from a non-empty magazine and none from an empty one, leaves the reserve alone, and sets `LastFireTime` to the call's time. |
| Sessions.CallFires | Source/MultiShootGame/Weapon/MultiShootGameWeapon.cpp:80-156 | The state a timer call leaves is the state `Fire` leaves, whatever the configuration. |
| Sessions.RunShots | Source/MultiShootGame/Weapon/MultiShootGameWeapon.cpp:80-156 | After the timer's `Fire` calls, `LastFireTime` is the time of the last completed shot, or unchanged if none completed. Every completed shot is one of the calls, at most one per call. The reserve is untouched, and a valid magazine ends with max(0, loaded − completed shots) rounds. |
| Sessions.RunShotsEmptyReserve | Source/MultiShootGame/Weapon/MultiShootGameWeapon.cpp:82-87 | With nothing in reserve, a run completes at most as many shots as the magazine held, because `BulletCheck` blocks every call after it empties. |
| Sessions.RunShotsEveryCall | Source/MultiShootGame/Weapon/MultiShootGameWeapon.cpp:82-89 | With rounds in reserve and a holder at every call, every call completes a shot: the completed shots are exactly the calls. |
| Sessions.RunShotsCompletedCall | Source/MultiShootGame/Weapon/MultiShootGameWeapon.cpp:82-89 | A call that gets past both guards of `Fire`, on the weapon as the earlier calls left it, is among the completed shots. |
| Sessions.RunShotsSplit | Source/MultiShootGame/Weapon/MultiShootGameWeapon.cpp:162-163 | Running the calls of `a + b` is running `a` and then `b` from where `a` left the weapon; the completed shots concatenate. |
| Sessions.RunShotsSpaced | Source/MultiShootGame/Weapon/MultiShootGameWeapon.cpp:154-163 | Calls spaced at least a gap from the last shot and from each other complete shots that are also spaced by that gap. |
| Sessions.Session | Source/MultiShootGame/Weapon/MultiShootGameWeapon.cpp:158-169 | One press/release: completed shots are at least `TimeBetweenShots` apart, including from the previous shot, and lie in [press, release). Releasing before the first delay is a no-op. The reserve is untouched and valid counters stay valid. |
| Sessions.SessionEveryDueTime | Source/MultiShootGame/Weapon/MultiShootGameWeapon.cpp:158-169 | With rounds in reserve and a holder throughout the hold, the completed shots are exactly the due times of the timer armed at the press. |
| Sessions.Play | Source/MultiShootGame/Weapon/MultiShootGameWeapon.cpp:158-169 | Over presses and releases that alternate in time, completed shots are never closer than `TimeBetweenShots`, and each lies within one of the holds. |
| Sessions.PlayOne | Source/MultiShootGame/Weapon/MultiShootGameWeapon.cpp:158-169 | A single hold plays exactly as one press/release `Session`. |
| Sessions.PlayAppend | Source/MultiShootGame/Weapon/MultiShootGameWeapon.cpp:158-169 | Playing holds `a + b` is playing `a` and then `b` from the weapon `a` leaves; the completed shots concatenate. So every shot of a play is a shot of its hold's `Session`, and none is dropped. |
| Sessions.Perform | Source/MultiShootGame/Weapon/MultiShootGameWeapon.cpp:80-272 | One action. A trigger pull leaves exactly the state `Fire` leaves, so a pull without a holder changes nothing and a completed pull records its time. Only a pull can spend a round, at most one. A completed reload spends nothing and conserves the rounds owned. Valid counters stay valid. |
| Sessions.PerformPull | Source/MultiShootGame/Weapon/MultiShootGameWeapon.cpp:230-240 | A pull with a holder spends exactly one round from a non-empty magazine and none from an empty one, and leaves the reserve alone. |
| Sessions.PerformReload | Source/MultiShootGame/Weapon/MultiShootGameWeapon.cpp:242-272 | A completed reload applies `BulletReload` with the weapon's `PerBulletNumber`, spends nothing and leaves `LastFireTime` (and so the `FireOfDelay` gate) unchanged. |
| Sessions.Apply | Source/MultiShootGame/Weapon/MultiShootGameWeapon.cpp:230-272 | Over any interleaving of shots and completed reloads, valid counters stay valid, and the owned total drops by exactly the rounds spent, which are at most one per trigger pull. |
| Sessions.ApplyTriggerOnly | Source/MultiShootGame/Weapon/MultiShootGameWeapon.cpp:230-240 | Pulled with a holder every time and no reload, the weapon spends min(pulls, loaded) rounds, all from the magazine, and the reserve is untouched. |
| Sessions.ApplySplit | Source/MultiShootGame/Weapon/MultiShootGameWeapon.cpp:230-272 | Applying `a + b` is applying `a` and then `b` from where `a` left the weapon; the rounds spent add up. |

## Left out

- Save-game loading in `BeginPlay` (lines 34–55) is persistence I/O with unchecked indexing into the loadout lists. The loaded record is an input (`Weapon.WeaponInfo`). `RateOfFire > 0` is required wherever the interval is used, because the source divides by it unchecked.
- The constructor's component set-up, `EnablePhysicsSimulate`, `ReloadShowMagazine` (bone hiding and magazine spawning) and the mesh/audio getters are left out. They are engine object plumbing with no state this core reads.
- Shot geometry is not modelled. This covers `FMath::VRandCone`, `DegreesToRadians`, `FindLookAtRotation` and rotator arithmetic. The sampled direction is an input, and the look-at inputs (eye and trace end) are carried in the emitted effects. The trace end itself, eye + 3000 × direction, is modelled.
- The random yaw/pitch amounts of `ShakeCamera` come from the engine's random number generator. The kick effect carries only the bounds they are drawn from, and the pitch input is the negation of the draw. The camera-shake asset is not carried.
- The engine's timer manager (`SetTimer`/`ClearTimer`) is not visible. The timer is modelled as `Fire` calls at exactly `press + FirstDelay + k × TimeBetweenShots` before the release.
- Sessions.Session: assumes each timer call runs at its due time and records that time as `LastFireTime`. The engine's timer manager is not part of this model. Its tick granularity, which can run a call late, is not modelled. Neither is a looping timer that falls behind and makes several catch-up calls in one tick, all recording the same world time. The spacing results are about the modelled schedule.
- Sessions.Play: requires holds that alternate in time, each released no earlier than pressed and pressed no earlier than the previous release, as trigger input produces them. An overlapping re-press, which re-arms the single timer handle so that the next release clears it, is not modelled.
- Sessions: a run and a history follow only the state `Fire` leaves (`Sessions.CallFires`, `Sessions.Perform`); the effects of each call are covered per call in `Weapon`.
- FireTiming.TimerShots: takes a shot due exactly at the moment of `StopFire` as cancelled. The engine's ordering of the two within one tick is not visible.
- The holder's `BeginReload` belongs to the character class, which is not part of this model. In `Sessions.Apply`, a completed reload is an action that applies `BulletReload`.
- Owner lookup and casts are reduced to flags. The owner is present or absent (`Option<Holder>`), and the FPS-camera variant is a configuration flag. A holder that is aiming without a sight camera (a null dereference in the source) is not modelled.
- The counters use unbounded integers, so 32-bit `int` overflow is not modelled. Times are `real`, so `float` rounding is not modelled either.

=== FILE: ammunition.dfy ===
/**
 The ammunition bookkeeping of the weapon actor: the rounds loaded in the
 magazine (`BulletNumber`), the rounds held in reserve (`MaxBulletNumber`),
 and the three rules that act on them — the "no ammunition at all" check,
 spending one round per shot, and the four-branch reload transfer.

 The counters are unbounded integers; the source's 32-bit `int` overflow is
 not modelled.
 */
module Ammunition {

  /** The two counters of a weapon: rounds in the magazine and in reserve. */
  datatype Ammo = Ammo(loaded: int, reserve: int)

  /** The invariant the game keeps: neither counter is negative. */
  predicate Valid(a: Ammo) {
    a.loaded >= 0 && a.reserve >= 0
  }

  /** Every round the weapon still owns, loaded or not. */
  function Total(a: Ammo): int {
    a.loaded + a.reserve
  }

  /**
   `BulletCheck`: true when the weapon must not fire. It only looks at the two
   counters, so a weapon with a zero/zero loadout is permanently blocked.
   */
  function BulletCheck(a: Ammo): (blocked: bool)
    ensures blocked ==> Total(a) == 0
    ensures Valid(a) ==> (blocked <==> Total(a) == 0)
  {
    a.loaded == 0 && a.reserve == 0
  }

  /** The outcome of spending a round: the new counters, and whether the holder was asked to reload. */
  datatype Spend = Spend(ammo: Ammo, reloadRequested: bool)

  /**
   `BulletFire`: with a round in the magazine, spend it; with none, leave the
   counters alone and ask the holder to begin a reload.
   */
  function BulletFire(a: Ammo): (s: Spend)
    ensures s.reloadRequested <==> a.loaded <= 0
    ensures s.ammo.reserve == a.reserve
    ensures s.reloadRequested ==> s.ammo == a
    ensures !s.reloadRequested ==> s.ammo.loaded == a.loaded - 1 >= 0
    ensures Total(s.ammo) == Total(a) - (if s.reloadRequested then 0 else 1)
    ensures Valid(a) ==> Valid(s.ammo)
  {
    if a.loaded > 0 then Spend(a.(loaded := a.loaded - 1), false)
    else Spend(a, true)
  }

  /** The four branches of `BulletReload`, in source order. */
  datatype ReloadBranch =
    | TopUp         // reserve > per, loaded < per
    | AddFull       // reserve > per, loaded >= per
    | TopUpFromRest // reserve <= per, loaded + reserve > per
    | Drain         // reserve <= per, loaded + reserve <= per

  /** Which branch `BulletReload` takes for these counters and per-reload amount. */
  function Branch(a: Ammo, per: int): ReloadBranch {
    if a.reserve > per then
      if a.loaded < per then TopUp else AddFull
    else
      if a.loaded + a.reserve > per then TopUpFromRest else Drain
  }

  /**
   `BulletReload`: move rounds from the reserve into the magazine, `per`
   being the weapon's `PerBulletNumber`. Rounds are only ever moved, never
   created or destroyed; once the counters and `per` are non-negative, so are
   the results, and afterwards the magazine holds at least `per` rounds or the
   reserve is empty.
   */
  function BulletReload(a: Ammo, per: int): (r: Ammo)
    ensures Total(r) == Total(a)
    ensures Valid(a) && per >= 0 ==> Valid(r)
    ensures Valid(a) && per >= 0 ==> (r.reserve == 0 <==> Branch(a, per) == Drain)
    ensures Valid(a) && per >= 0 ==> r.loaded >= per || r.reserve == 0
  {
    match Branch(a, per)
    case TopUp =>
      var moved := per - a.loaded;
      Ammo(per, a.reserve - moved)
    case AddFull =>
      Ammo(a.loaded + per, a.reserve - per)
    case TopUpFromRest =>
      var moved := per - a.loaded;
      Ammo(per, a.reserve - moved)
    case Drain =>
      Ammo(a.loaded + a.reserve, 0)
  }

  /**
   A reference statement of the reload rule that does not follow the source's
   nesting: for valid counters, a reload either adds a full `per` (magazine
   already at or above `per` and more than `per` in reserve), or sets the
   magazine to `per` when everything owned exceeds `per`, or else drains the
   reserve.
   */
  lemma ReloadNormalForm(a: Ammo, per: int)
    requires Valid(a)
    ensures a.reserve > per && a.loaded >= per ==>
      BulletReload(a, per) == Ammo(a.loaded + per, a.reserve - per)
    ensures !(a.reserve > per && a.loaded >= per) && Total(a) > per ==>
      BulletReload(a, per) == Ammo(per, Total(a) - per)
    ensures Total(a) <= per ==>
      BulletReload(a, per) == Ammo(Total(a), 0)
  {
    match Branch(a, per)
    case TopUp =>
      assert Total(a) > per;
    case AddFull =>
    case TopUpFromRest =>
    case Drain =>
  }

  /**
   The magazine ends above `per` exactly when the full-add branch ran on a
   magazine that was not empty (a full magazine is then filled past `per`).
   */
  lemma ReloadOverfill(a: Ammo, per: int)
    requires Valid(a) && per >= 0
    ensures BulletReload(a, per).loaded > per <==> Branch(a, per) == AddFull && a.loaded > 0
    ensures BulletReload(a, per).loaded > per ==> a.loaded >= per && a.reserve > per
  {
  }

  /**
   The magazine ends below what it held only in the second top-up branch,
   when it held more than `per` and the reserve was at most `per`; the rounds
   it loses go back to the reserve.
   */
  lemma ReloadClampDown(a: Ammo, per: int)
    requires Valid(a) && per >= 0
    ensures BulletReload(a, per).loaded < a.loaded <==>
      Branch(a, per) == TopUpFromRest && a.loaded > per
    ensures BulletReload(a, per).loaded < a.loaded ==>
      BulletReload(a, per).reserve == a.reserve + (a.loaded - per)
  {
  }

  /** Worked values of the reload rule, including both surprising outcomes. */
  lemma ReloadExamples()
    ensures BulletReload(Ammo(5, 100), 30) == Ammo(30, 75)
    ensures BulletReload(Ammo(5, 20), 30) == Ammo(25, 0)
    ensures BulletReload(Ammo(30, 100), 30) == Ammo(60, 70)
    ensures BulletReload(Ammo(40, 10), 30) == Ammo(30, 20)
  {
  }
}

=== FILE: sessions.dfy ===
/**
 The weapon over time. Holding the trigger is a session: `StartFire` at the
 press arms the engine's repeating timer with `FirstDelay`, the timer calls
 `Fire` once per due time, and `StopFire` at the release clears it. The
 engine's timer manager is not modelled itself; a session's `Fire` calls are
 taken to happen exactly at the due times `TimerShots` lists, and the world
 at each of those moments is given by `env`.

 Separately, any interleaving of shots and completed reloads is shown to keep
 the ammunition counters non-negative and to account for every round.
 */
module Sessions {
  import opened Ammunition
  import opened FireTiming
  import opened Weapon

  /** The weapon after a run of `Fire` calls, and the times of the calls that completed a shot. */
  datatype Run = Run(state: WeaponState, fired: seq<real>)

  /**
   What is left in a magazine of `loaded` rounds after `shots` completed
   shots: each takes a round while there is one, and a shot on an empty
   magazine (fired because the reserve is not empty) takes none.
   */
  function Drawn(loaded: int, shots: nat): int {
    if loaded >= shots then loaded - shots else 0
  }

  /**
   One `Fire` call at `now`: the state it leaves, and `now` exactly when the
   call completed a shot. A completed shot takes a round from a non-empty
   magazine.
   */
  function Call(w: WeaponState, e: ShotEnv, now: real): (r: Run)
    ensures |r.fired| == 1 <==> Completes(w, e)
    ensures r.state.lastFireTime == LastOr(w.lastFireTime, r.fired)
    ensures |r.fired| <= 1 && forall t :: t in r.fired ==> t == now
    ensures Valid(w.ammo) ==> r.state.ammo.loaded == Drawn(w.ammo.loaded, |r.fired|)
    ensures r.state.ammo.reserve == w.ammo.reserve
    ensures Valid(w.ammo) ==> Valid(r.state.ammo)
  {
    Run(Advance(w, e, now), if Completes(w, e) then [now] else [])
  }

  /** The state a call leaves is the state `Fire` leaves, whatever the configuration. */
  lemma CallFires(cfg: WeaponConfig, w: WeaponState, e: ShotEnv, now: real)
    ensures Call(w, e, now).state == Fire(cfg, w, e, now).state
  {
    FireAdvances(cfg, w, e, now);
  }

  /** Drawing `a` shots and then `b` more leaves what drawing `a + b` at once does. */
  lemma DrawnAdd(loaded: int, a: nat, b: nat)
    ensures Drawn(Drawn(loaded, a), b) == Drawn(loaded, a + b)
  {
  }

  /** The magazine after one run followed by another is what drawing all their shots at once leaves. */
  lemma RunDrawn(a: Ammo, first: Run, rest: Run)
    requires Valid(a) ==> Valid(first.state.ammo) && first.state.ammo.loaded == Drawn(a.loaded, |first.fired|)
    requires Valid(first.state.ammo) ==> rest.state.ammo.loaded == Drawn(first.state.ammo.loaded, |rest.fired|)
    ensures Valid(a) ==> rest.state.ammo.loaded == Drawn(a.loaded, |first.fired + rest.fired|)
  {
    DrawnAdd(a.loaded, |first.fired|, |rest.fired|);
  }

  /**
   Calls `Fire` at each of the given times, in order, following the state each
   call leaves (`Advance`, which `Weapon.FireAdvances` ties to `Fire`; the
   effects play no part over time). The recorded last fire time afterwards is
   that of the last completed shot, or unchanged when no shot completed, and
   every completed shot is one of the calls.
   */
  function RunShots(w: WeaponState, shots: seq<real>, env: real -> ShotEnv): (r: Run)
    ensures r.state.lastFireTime == LastOr(w.lastFireTime, r.fired)
    ensures |r.fired| <= |shots|
    ensures forall t :: t in r.fired ==> t in shots
    ensures Valid(w.ammo) ==> Valid(r.state.ammo)
    ensures Valid(w.ammo) ==> r.state.ammo.loaded == Drawn(w.ammo.loaded, |r.fired|)
    ensures r.state.ammo.reserve == w.ammo.reserve
    decreases |shots|
  {
    if |shots| == 0 then
      Run(w, [])
    else
      var first := Call(w, env(shots[0]), shots[0]);
      var rest := RunShots(first.state, shots[1..], env);
      assert forall t :: t in rest.fired ==> t in shots by {
        forall t | t in rest.fired
          ensures t in shots
        {
          assert t in shots[1..];
        }
      }
      LastOrAppend(w.lastFireTime, first.fired, rest.fired);
      RunDrawn(w.ammo, first, rest);
      Run(rest.state, first.fired + rest.fired)
  }

  /**
   With nothing in reserve, a run completes at most as many shots as the
   magazine held: once it is empty, `BulletCheck` blocks every later call.
   */
  lemma {:induction false} RunShotsEmptyReserve(w: WeaponState, shots: seq<real>, env: real -> ShotEnv)
    requires Valid(w.ammo) && w.ammo.reserve == 0
    ensures |RunShots(w, shots, env).fired| <= w.ammo.loaded
    decreases |shots|
  {
    if |shots| > 0 {
      var first := Call(w, env(shots[0]), shots[0]);
      RunShotsEmptyReserve(first.state, shots[1..], env);
    }
  }

  /**
   A run never touches the reserve, so with rounds in reserve and a holder at
   every call, every call completes a shot.
   */
  lemma {:induction false} RunShotsEveryCall(w: WeaponState, shots: seq<real>, env: real -> ShotEnv)
    requires w.ammo.reserve > 0
    requires forall t :: t in shots ==> env(t).owner.Some?
    ensures RunShots(w, shots, env).fired == shots
    decreases |shots|
  {
    if |shots| > 0 {
      var first := Call(w, env(shots[0]), shots[0]);
      assert Completes(w, env(shots[0]));
      assert forall t :: t in shots[1..] ==> t in shots;
      RunShotsEveryCall(first.state, shots[1..], env);
      assert [shots[0]] + shots[1..] == shots;
    }
  }

  /** Splitting the first element off a concatenation. */
  lemma AppendTail<T>(a: seq<T>, b: seq<T>)
    requires |a| > 0
    ensures (a + b)[0] == a[0] && (a + b)[1..] == a[1..] + b
  {
  }

  /** A run over `a + b` is the run over `a` followed by the run over `b` from where it left the weapon. */
  lemma {:induction false} RunShotsSplit(w: WeaponState, a: seq<real>, b: seq<real>,
                                         env: real -> ShotEnv)
    ensures var ra := RunShots(w, a, env);
      var rb := RunShots(ra.state, b, env);
      RunShots(w, a + b, env) == Run(rb.state, ra.fired + rb.fired)
    decreases |a|
  {
    if |a| > 0 {
      var first := Call(w, env(a[0]), a[0]);
      var ra := RunShots(first.state, a[1..], env);
      var rb := RunShots(ra.state, b, env);
      RunShotsSplit(first.state, a[1..], b, env);
      assert RunShots(w, a + b, env) == Run(rb.state, first.fired + (ra.fired + rb.fired)) by {
        AppendTail(a, b);
      }
      assert first.fired + (ra.fired + rb.fired) == (first.fired + ra.fired) + rb.fired;
    } else {
      assert a + b == b;
    }
  }

  /**
   Every call that completes a shot is recorded: when the call at `shots[i]`,
   made on the weapon as the calls before it left it, gets past both guards
   of `Fire`, its time is among the completed shots.
   */
  lemma RunShotsCompletedCall(w: WeaponState, shots: seq<real>, env: real -> ShotEnv, i: nat)
    requires i < |shots|
    requires Completes(RunShots(w, shots[..i], env).state, env(shots[i]))
    ensures shots[i] in RunShots(w, shots, env).fired
  {
    assert shots == shots[..i] + shots[i..];
    RunShotsSplit(w, shots[..i], shots[i..], env);
    var before := RunShots(w, shots[..i], env).state;
    var from := RunShots(before, shots[i..], env);
    assert shots[i..][0] == shots[i];
    assert shots[i] in from.fired;
  }

  /**
   Calls that come at least `gap` after the recorded last fire time and at
   least `gap` apart complete shots that are at least `gap` apart too: a
   blocked or holderless call only widens the distance to the next shot.
   */
  lemma {:induction false} RunShotsSpaced(w: WeaponState, shots: seq<real>,
                                          env: real -> ShotEnv, gap: real)
    requires gap >= 0.0
    requires Spaced(w.lastFireTime, shots, gap)
    ensures Spaced(w.lastFireTime, RunShots(w, shots, env).fired, gap)
    decreases |shots|
  {
    if |shots| > 0 {
      var first := Call(w, env(shots[0]), shots[0]);
      var tail := shots[1..];
      assert first.state.lastFireTime <= shots[0] by {
        if |first.fired| > 0 {
          assert first.fired[0] in first.fired;
        }
      }
      SpacedTail(w.lastFireTime, shots, gap, first.state.lastFireTime);
      RunShotsSpaced(first.state, tail, env, gap);
      assert Spaced(w.lastFireTime, first.fired, gap) by {
        if |first.fired| > 0 {
          assert first.fired[0] in first.fired;
        }
      }
      SpacedAppend(w.lastFireTime, first.fired, RunShots(first.state, tail, env).fired, gap);
    }
  }

  /**
   One trigger hold: `StartFire` at `press` and `StopFire` at `release`. No
   two completed shots of the session, nor its first and the shot before it,
   are closer than `TimeBetweenShots`; a release before the first delay has
   elapsed fires nothing and changes nothing.
   */
  function Session(cfg: WeaponConfig, w: WeaponState, press: real, release: real, env: real -> ShotEnv): (r: Run)
    requires cfg.info.rateOfFire > 0.0
    ensures Spaced(w.lastFireTime, r.fired, TimeBetweenShots(cfg.info.rateOfFire))
    ensures r.state.lastFireTime == LastOr(w.lastFireTime, r.fired)
    ensures forall t :: t in r.fired ==> press <= t < release
    ensures release <= press + FirstDelay(w.lastFireTime, TimeBetweenShots(cfg.info.rateOfFire), press) ==>
      r == Run(w, [])
    ensures r.state.ammo.reserve == w.ammo.reserve
    ensures Valid(w.ammo) ==> Valid(r.state.ammo)
  {
    var interval := TimeBetweenShots(cfg.info.rateOfFire);
    var shots := TimerShots(press + FirstDelay(w.lastFireTime, interval, press), interval, release);
    StartFireSpaced(w.lastFireTime, interval, press, release);
    RunShotsSpaced(w, shots, env, interval);
    TimerShotsWithin(press + FirstDelay(w.lastFireTime, interval, press), interval, release, press);
    RunShots(w, shots, env)
  }

  /** The timer's shots lie between the press and the release when the first is due no earlier than the press. */
  lemma TimerShotsWithin(first: real, interval: real, stop: real, press: real)
    requires interval > 0.0 && press <= first
    ensures forall t :: t in TimerShots(first, interval, stop) ==> press <= t < stop
  {
    var shots := TimerShots(first, interval, stop);
    forall t | t in shots
      ensures press <= t < stop
    {
      var i :| 0 <= i < |shots| && shots[i] == t;
    }
  }

  /** With rounds in reserve and a holder throughout the hold, every due time of the timer is a completed shot. */
  lemma SessionEveryDueTime(cfg: WeaponConfig, w: WeaponState, press: real, release: real, env: real -> ShotEnv)
    requires cfg.info.rateOfFire > 0.0
    requires w.ammo.reserve > 0
    requires forall t :: press <= t < release ==> env(t).owner.Some?
    ensures Session(cfg, w, press, release, env).fired ==
      TimerShots(press + FirstDelay(w.lastFireTime, TimeBetweenShots(cfg.info.rateOfFire), press),
                 TimeBetweenShots(cfg.info.rateOfFire), release)
  {
    var interval := TimeBetweenShots(cfg.info.rateOfFire);
    var shots := TimerShots(press + FirstDelay(w.lastFireTime, interval, press), interval, release);
    TimerShotsWithin(press + FirstDelay(w.lastFireTime, interval, press), interval, release, press);
    HeldAtEveryCall(shots, press, release, env);
    RunShotsEveryCall(w, shots, env);
    SessionRuns(cfg, w, press, release, env);
  }

  /** Calls within a hold during which a holder is always present all find one. */
  lemma HeldAtEveryCall(shots: seq<real>, press: real, release: real, env: real -> ShotEnv)
    requires forall t :: t in shots ==> press <= t < release
    requires forall t :: press <= t < release ==> env(t).owner.Some?
    ensures forall t :: t in shots ==> env(t).owner.Some?
  {
  }

  /** A session is the run of the `Fire` calls at the timer's due times. */
  lemma SessionRuns(cfg: WeaponConfig, w: WeaponState, press: real, release: real, env: real -> ShotEnv)
    requires cfg.info.rateOfFire > 0.0
    ensures var interval := TimeBetweenShots(cfg.info.rateOfFire);
      Session(cfg, w, press, release, env) ==
      RunShots(w, TimerShots(press + FirstDelay(w.lastFireTime, interval, press), interval, release), env)
  {
  }

  /** A trigger hold, from press to release, in world seconds. */
  datatype Hold = Hold(press: real, release: real)

  /**
   Holds as the trigger produces them: each released no earlier than it was
   pressed, and each pressed no earlier than the one before was released.
   */
  predicate Alternating(holds: seq<Hold>) {
    && (forall i :: 0 <= i < |holds| ==> holds[i].press <= holds[i].release)
    && (forall i :: 0 < i < |holds| ==> holds[i - 1].release <= holds[i].press)
  }

  /** Dropping the first hold keeps the holds alternating. */
  lemma AlternatingTail(holds: seq<Hold>)
    requires Alternating(holds) && |holds| > 0
    ensures Alternating(holds[1..])
  {
    var tail := holds[1..];
    forall i | 0 < i < |tail|
      ensures tail[i - 1].release <= tail[i].press
    {
      assert tail[i - 1] == holds[i] && tail[i] == holds[i + 1];
    }
  }

  /**
   The trigger held and released several times over, each hold released
   before the next press. However the holds are placed, the completed shots
   are never closer than `TimeBetweenShots`: re-pressing the trigger does not
   beat the rate of fire. Every completed shot lies within a hold. Each hold
   plays as one `Session` (`PlayOne`, `PlayAppend`), so with rounds in reserve
   and a holder throughout, each hold fires at every due time of its timer
   (`SessionEveryDueTime`).
   */
  function Play(cfg: WeaponConfig, w: WeaponState, holds: seq<Hold>, env: real -> ShotEnv): (r: Run)
    requires cfg.info.rateOfFire > 0.0
    requires Alternating(holds)
    ensures Spaced(w.lastFireTime, r.fired, TimeBetweenShots(cfg.info.rateOfFire))
    ensures r.state.lastFireTime == LastOr(w.lastFireTime, r.fired)
    ensures forall t :: t in r.fired ==> exists i :: 0 <= i < |holds| && holds[i].press <= t < holds[i].release
    ensures r.state.ammo.reserve == w.ammo.reserve
    ensures Valid(w.ammo) ==> Valid(r.state.ammo)
    decreases |holds|
  {
    if |holds| == 0 then
      Run(w, [])
    else
      var first := Session(cfg, w, holds[0].press, holds[0].release, env);
      var tail := holds[1..];
      AlternatingTail(holds);
      var rest := Play(cfg, first.state, tail, env);
      SpacedAppend(w.lastFireTime, first.fired, rest.fired, TimeBetweenShots(cfg.info.rateOfFire));
      LastOrAppend(w.lastFireTime, first.fired, rest.fired);
      WithinHoldsAppend(holds, first.fired, rest.fired);
      Run(rest.state, first.fired + rest.fired)
  }

  /** Every time in `a + b` lies within a hold when those of `a` lie in the first and those of `b` in a later one. */
  lemma WithinHoldsAppend(holds: seq<Hold>, a: seq<real>, b: seq<real>)
    requires |holds| > 0
    requires forall t :: t in a ==> holds[0].press <= t < holds[0].release
    requires forall t :: t in b ==> exists i :: 0 <= i < |holds[1..]| && holds[1..][i].press <= t < holds[1..][i].release
    ensures forall t :: t in a + b ==> exists i :: 0 <= i < |holds| && holds[i].press <= t < holds[i].release
  {
    forall t | t in a + b
      ensures exists i :: 0 <= i < |holds| && holds[i].press <= t < holds[i].release
    {
      if t in a {
        assert holds[0].press <= t < holds[0].release;
      } else {
        var j :| 0 <= j < |holds[1..]| && holds[1..][j].press <= t < holds[1..][j].release;
        assert holds[j + 1] == holds[1..][j];
      }
    }
  }

  /** A single hold plays exactly as one `Session`. */
  lemma PlayOne(cfg: WeaponConfig, w: WeaponState, h: Hold, env: real -> ShotEnv)
    requires cfg.info.rateOfFire > 0.0
    requires h.press <= h.release
    ensures Play(cfg, w, [h], env) == Session(cfg, w, h.press, h.release, env)
  {
    var first := Session(cfg, w, h.press, h.release, env);
    assert [h][1..] == [];
    assert first.fired + [] == first.fired;
  }

  /** The first holds of alternating holds, and the last ones, alternate too. */
  lemma AlternatingSplit(a: seq<Hold>, b: seq<Hold>)
    requires Alternating(a + b)
    ensures Alternating(a) && Alternating(b)
  {
    var ab := a + b;
    forall i | 0 < i < |a|
      ensures a[i - 1].release <= a[i].press
    {
      assert ab[i - 1] == a[i - 1] && ab[i] == a[i];
    }
    forall i | 0 <= i < |a|
      ensures a[i].press <= a[i].release
    {
      assert ab[i] == a[i];
    }
    forall i | 0 < i < |b|
      ensures b[i - 1].release <= b[i].press
    {
      assert ab[|a| + i - 1] == b[i - 1] && ab[|a| + i] == b[i];
    }
    forall i | 0 <= i < |b|
      ensures b[i].press <= b[i].release
    {
      assert ab[|a| + i] == b[i];
    }
  }

  /**
   Playing the holds of `a + b` is playing `a` and then `b` from where `a` left
   the weapon; the completed shots concatenate. With `PlayOne`, this pins every
   shot of a play to the `Session` of its hold.
   */
  lemma {:induction false} PlayAppend(cfg: WeaponConfig, w: WeaponState, a: seq<Hold>, b: seq<Hold>,
                                      env: real -> ShotEnv)
    requires cfg.info.rateOfFire > 0.0
    requires Alternating(a + b)
    ensures Alternating(a) && Alternating(b)
    ensures var pa := Play(cfg, w, a, env);
            var pb := Play(cfg, pa.state, b, env);
            Play(cfg, w, a + b, env) == Run(pb.state, pa.fired + pb.fired)
    decreases |a|
  {
    AlternatingSplit(a, b);
    if |a| == 0 {
      assert a + b == b;
      assert [] + Play(cfg, w, b, env).fired == Play(cfg, w, b, env).fired;
    } else {
      var first := Session(cfg, w, a[0].press, a[0].release, env);
      AppendTail(a, b);
      AlternatingTail(a + b);
      PlayAppend(cfg, first.state, a[1..], b, env);
      var pa1 := Play(cfg, first.state, a[1..], env);
      var pb := Play(cfg, pa1.state, b, env);
      assert Play(cfg, w, a + b, env) == Run(pb.state, first.fired + (pa1.fired + pb.fired));
      assert first.fired + (pa1.fired + pb.fired) == (first.fired + pa1.fired) + pb.fired;
    }
  }

  /** What can happen to the weapon's ammunition: a pull of the trigger, or a reload completing. */
  datatype Action =
    | Shoot(env: ShotEnv, now: real)
    | Reloaded

  /** The number of trigger pulls among the actions. */
  function CountShoots(actions: seq<Action>): nat {
    if |actions| == 0 then 0
    else (if actions[0].Shoot? then 1 else 0) + CountShoots(actions[1..])
  }

  /** The weapon after one or more actions, and the number of completed shots that spent a round. */
  datatype History = History(state: WeaponState, spent: nat)

  /**
   One action: a trigger pull as one `Fire`, a completed reload as
   `BulletReload`. Only a pull can spend a round, and a reload moves rounds
   without spending any.
   */
  function Perform(cfg: WeaponConfig, w: WeaponState, action: Action): (h: History)
    ensures action.Shoot? ==> h.state == Fire(cfg, w, action.env, action.now).state
    ensures Total(h.state.ammo) + h.spent == Total(w.ammo)
    ensures Valid(w.ammo) && cfg.info.perBulletNumber >= 0 ==> Valid(h.state.ammo)
    ensures h.spent <= (if action.Shoot? then 1 else 0)
  {
    match action
    case Shoot(env, now) =>
      History(Advance(w, env, now), if Completes(w, env) && w.ammo.loaded > 0 then 1 else 0)
    case Reloaded =>
      History(w.(ammo := BulletReload(w.ammo, cfg.info.perBulletNumber)), 0)
  }

  /**
   A completed reload is the weapon's `BulletReload` with its own per-reload
   amount: it spends nothing and leaves the last fire time, and with it the
   `FireOfDelay` gate, alone.
   */
  lemma PerformReload(cfg: WeaponConfig, w: WeaponState)
    ensures Perform(cfg, w, Reloaded).spent == 0
    ensures Perform(cfg, w, Reloaded).state.ammo == BulletReload(w.ammo, cfg.info.perBulletNumber)
    ensures Perform(cfg, w, Reloaded).state.lastFireTime == w.lastFireTime
  {
  }

  /** A pull with a holder spends exactly one round from a non-empty magazine, and none from an empty one. */
  lemma PerformPull(cfg: WeaponConfig, w: WeaponState, action: Action)
    requires Valid(w.ammo) && action.Shoot? && action.env.owner.Some?
    ensures var h := Perform(cfg, w, action);
      h.spent == (if w.ammo.loaded > 0 then 1 else 0) && h.state.ammo == Ammo(w.ammo.loaded - h.spent, w.ammo.reserve)
  {
  }

  /**
   Applies the actions in order. Valid counters stay valid, and the rounds
   the weapon owns drop by exactly the rounds spent, never more than one per
   trigger pull.
   */
  function Apply(cfg: WeaponConfig, w: WeaponState, actions: seq<Action>): (h: History)
    ensures Total(h.state.ammo) + h.spent == Total(w.ammo)
    ensures Valid(w.ammo) && cfg.info.perBulletNumber >= 0 ==> Valid(h.state.ammo)
    ensures h.spent <= CountShoots(actions)
    decreases |actions|
  {
    if |actions| == 0 then
      History(w, 0)
    else
      var first := Perform(cfg, w, actions[0]);
      var rest := Apply(cfg, first.state, actions[1..]);
      History(rest.state, first.spent + rest.spent)
  }

  /** Every action is a trigger pull made with a holder present. */
  predicate HeldPulls(actions: seq<Action>) {
    forall i :: 0 <= i < |actions| ==> actions[i].Shoot? && actions[i].env.owner.Some?
  }

  /** Dropping the first action keeps every action a held pull. */
  lemma HeldPullsTail(actions: seq<Action>)
    requires HeldPulls(actions) && |actions| > 0
    ensures HeldPulls(actions[1..])
  {
    var tail := actions[1..];
    forall i | 0 <= i < |tail|
      ensures tail[i].Shoot? && tail[i].env.owner.Some?
    {
      assert tail[i] == actions[i + 1];
    }
  }

  /**
   Pulled with a holder every time and no reload in between, the trigger
   spends one round per pull until the magazine is empty and nothing after,
   and the reserve is untouched.
   */
  lemma {:induction false} ApplyTriggerOnly(cfg: WeaponConfig, w: WeaponState, actions: seq<Action>)
    requires Valid(w.ammo) && HeldPulls(actions)
    ensures Apply(cfg, w, actions).spent == (if |actions| < w.ammo.loaded then |actions| else w.ammo.loaded)
    ensures Apply(cfg, w, actions).state.ammo == Ammo(w.ammo.loaded - Apply(cfg, w, actions).spent, w.ammo.reserve)
    decreases |actions|
  {
    if |actions| > 0 {
      var first := Perform(cfg, w, actions[0]);
      PerformPull(cfg, w, actions[0]);
      assert Valid(first.state.ammo);
      HeldPullsTail(actions);
      ApplyTriggerOnly(cfg, first.state, actions[1..]);
    }
  }

  /** Applying `a + b` is applying `a` and then `b` to the weapon `a` left, the rounds spent adding up. */
  lemma {:induction false} ApplySplit(cfg: WeaponConfig, w: WeaponState, a: seq<Action>, b: seq<Action>)
    ensures var ha := Apply(cfg, w, a);
      var hb := Apply(cfg, ha.state, b);
      Apply(cfg, w, a + b) == History(hb.state, ha.spent + hb.spent)
    decreases |a|
  {
    if |a| > 0 {
      var first := Perform(cfg, w, a[0]);
      var ha := Apply(cfg, first.state, a[1..]);
      var hb := Apply(cfg, ha.state, b);
      ApplySplit(cfg, first.state, a[1..], b);
      assert Apply(cfg, w, a + b) == History(hb.state, first.spent + (ha.spent + hb.spent)) by {
        AppendTail(a, b);
      }
    } else {
      assert a + b == b;
    }
  }
}

=== FILE: timing.dfy ===
/**
 The fire timing of the weapon actor: the interval between automatic shots
 derived from the rate of fire, the first delay computed when the trigger is
 pressed, the repeating timer that then drives `Fire`, and the time gate of
 the shotgun-style `FireOfDelay`.

 Times are `real` seconds of the world clock, an idealisation of the
 engine's single-precision `float` seconds (no rounding is modelled).
 */
module FireTiming {

  /**
   `TimeBetweenShots` as derived in `BeginPlay`: `rate` is in rounds per
   minute, so `rate` intervals make up exactly one minute.
   */
  function TimeBetweenShots(rate: real): (interval: real)
    requires rate > 0.0
    ensures interval > 0.0
    ensures interval * rate == 60.0
  {
    60.0 / rate
  }

  /**
   The first delay `StartFire` arms the timer with: never negative, and long
   enough that the first shot comes at least `interval` after the last one.
   It is no longer than that: either zero or exactly the remaining wait.
   */
  function FirstDelay(lastFire: real, interval: real, now: real): (delay: real)
    ensures delay >= 0.0
    ensures now + delay >= lastFire + interval
    ensures delay == 0.0 || now + delay == lastFire + interval
  {
    if lastFire + interval - now > 0.0 then lastFire + interval - now else 0.0
  }

  /** The first delay is the least non-negative delay that respects the spacing. */
  lemma FirstDelayLeast(lastFire: real, interval: real, now: real, other: real)
    requires other >= 0.0 && now + other >= lastFire + interval
    ensures FirstDelay(lastFire, interval, now) <= other
  {
  }

  /**
   The shots a repeating timer takes when its first shot is due at `first`,
   it repeats every `interval`, and it is cleared at `stop`: every due time
   before `stop`, in order, `interval` apart, and no due time before `stop`
   left out. A shot due exactly at `stop` is taken to be cancelled.
   */
  function TimerShots(first: real, interval: real, stop: real): (shots: seq<real>)
    requires interval > 0.0
    ensures forall i :: 0 <= i < |shots| ==> shots[i] == first + (i as real) * interval
    ensures forall i :: 0 <= i < |shots| ==> first <= shots[i] < stop
    ensures stop <= first + (|shots| as real) * interval
    decreases if first < stop then ((stop - first) / interval).Floor + 1 else 0
  {
    if first < stop then
      FloorStep(stop - first, interval);
      [first] + TimerShots(first + interval, interval, stop)
    else
      []
  }

  /** Moving one interval closer to the stop time lowers the remaining count by one. */
  lemma FloorStep(span: real, interval: real)
    requires interval > 0.0
    ensures ((span - interval) / interval).Floor == (span / interval).Floor - 1
  {
    assert interval / interval == 1.0;
    assert (span - interval) / interval == span / interval - interval / interval;
  }

  /**
   Whether a sequence of shot times honours a minimum spacing `gap`: the first
   comes at least `gap` after `lastFire`, and each later one at least `gap`
   after the one before it.
   */
  predicate Spaced(lastFire: real, shots: seq<real>, gap: real) {
    && (|shots| > 0 ==> shots[0] >= lastFire + gap)
    && forall i :: 0 < i < |shots| ==> shots[i] >= shots[i - 1] + gap
  }

  /**
   Dropping the first of a spaced sequence of shots leaves one spaced from
   any time no later than that first shot.
   */
  lemma SpacedTail(lastFire: real, shots: seq<real>, gap: real, newLast: real)
    requires Spaced(lastFire, shots, gap) && |shots| > 0
    requires newLast <= shots[0]
    ensures Spaced(newLast, shots[1..], gap)
  {
    var tail := shots[1..];
    if |tail| > 0 {
      assert tail[0] == shots[1];
    }
    forall i | 0 < i < |tail|
      ensures tail[i] >= tail[i - 1] + gap
    {
      assert tail[i] == shots[i + 1] && tail[i - 1] == shots[i];
    }
  }

  /** The last of a sequence of shot times, or `lastFire` when there are none. */
  function LastOr(lastFire: real, shots: seq<real>): real {
    if |shots| == 0 then lastFire else shots[|shots| - 1]
  }

  /** The last of `a + b` is the last of `b`, or of `a` when `b` is empty. */
  lemma LastOrAppend(lastFire: real, a: seq<real>, b: seq<real>)
    ensures LastOr(lastFire, a + b) == LastOr(LastOr(lastFire, a), b)
  {
  }

  /** Spacing carries over when a second spaced run starts from the end of a first. */
  lemma SpacedAppend(lastFire: real, a: seq<real>, b: seq<real>, gap: real)
    requires Spaced(lastFire, a, gap)
    requires Spaced(LastOr(lastFire, a), b, gap)
    ensures Spaced(lastFire, a + b, gap)
  {
    var ab := a + b;
    forall i | 0 < i < |ab|
      ensures ab[i] >= ab[i - 1] + gap
    {
      if i < |a| {
        assert ab[i] == a[i] && ab[i - 1] == a[i - 1];
      } else if i == |a| {
        assert ab[i] == b[0] && ab[i - 1] == a[|a| - 1];
      } else {
        assert ab[i] == b[i - |a|] && ab[i - 1] == b[i - 1 - |a|];
      }
    }
  }

  /**
   The timer armed by `StartFire` at `now` never shoots sooner than `interval`
   after the previous shot, nor two shots closer than `interval`.
   */
  lemma StartFireSpaced(lastFire: real, interval: real, now: real, stop: real)
    requires interval > 0.0
    ensures Spaced(lastFire, TimerShots(now + FirstDelay(lastFire, interval, now), interval, stop), interval)
  {
    var shots := TimerShots(now + FirstDelay(lastFire, interval, now), interval, stop);
    forall i | 0 < i < |shots|
      ensures shots[i] >= shots[i - 1] + interval
    {
      assert shots[i] == shots[i - 1] + interval by {
        assert ((i - 1) as real) * interval + interval == (i as real) * interval;
      }
    }
  }

  /** `StopFire` before the first delay has elapsed leaves the timer with no shot at all. */
  lemma StopBeforeFirstShot(lastFire: real, interval: real, now: real, stop: real)
    requires interval > 0.0
    requires stop <= now + FirstDelay(lastFire, interval, now)
    ensures TimerShots(now + FirstDelay(lastFire, interval, now), interval, stop) == []
  {
  }

  /**
   The time gate of `FireOfDelay`: a weapon whose last fire time is still 0
   (the never-fired value) may always fire; otherwise strictly more than
   `delay` seconds must have passed since the last shot.
   */
  function DelayGateOpen(lastFire: real, now: real, delay: real): (open: bool)
    ensures lastFire == 0.0 ==> open
    ensures lastFire != 0.0 && now - lastFire <= delay ==> !open
    ensures lastFire != 0.0 && now - lastFire > delay ==> open
  {
    if lastFire == 0.0 then true else now - lastFire > delay
  }

  /** Worked values: 600 rounds a minute is one shot per 0.1 s. */
  lemma TimingExamples()
    ensures TimeBetweenShots(600.0) == 0.1
    ensures FirstDelay(9.95, 0.1, 10.0) == 0.05
    ensures FirstDelay(5.0, 0.1, 10.0) == 0.0
  {
  }
}

=== FILE: weapon.dfy ===
/**
 One call of the weapon actor's `Fire`, modelled as a pure step: from the
 weapon's ammunition and last fire time, its configuration, what the engine
 reports about the holder at that moment, and the world time, to the new
 state and the ordered list of effects the call triggers in the engine.

 Geometry and randomness stay outside: the randomly spread shot direction is
 an input, and the look-at rotations, socket positions and random camera-kick
 amounts are left to the engine, which receives the values they are computed
 from inside the emitted effects.
 */
module Weapon {
  import opened Ammunition
  import opened FireTiming

  datatype Option<T> = None | Some(value: T)

  /** The slot the holder currently wields the weapon in. */
  datatype WeaponMode = MainWeapon | SecondWeapon | ThirdWeapon

  datatype Vec3 = Vec3(x: real, y: real, z: real)

  function Plus(a: Vec3, b: Vec3): Vec3 {
    Vec3(a.x + b.x, a.y + b.y, a.z + b.z)
  }

  function Scale(a: Vec3, k: real): Vec3 {
    Vec3(a.x * k, a.y * k, a.z * k)
  }

  /** How far along the shot direction the trace end point lies. */
  const TraceRange: real := 3000.0

  /**
   The part of the loaded weapon record this core reads, apart from the two
   ammunition counters, which live in `WeaponState`. Spread and camera angles
   are degrees; the rate of fire is rounds per minute. `bulletSpread` is the
   half-angle of the engine's cone sampling of the shot direction, which is
   outside this model (the sampled direction is an input), so no rule here
   reads it.
   */
  datatype WeaponInfo = WeaponInfo(
    rateOfFire: real,
    bulletSpread: real,
    cameraSpread: real,
    cameraSpreadDown: real,
    baseDamage: real,
    perBulletNumber: int,
    delayOfShotgun: real,
    hasProjectileClass: bool)

  /**
   The weapon actor's configuration: its loaded record, whether a muzzle
   effect and a shell class are set, and whether the actor is the FPS-camera
   variant of the weapon.
   */
  datatype WeaponConfig = WeaponConfig(
    info: WeaponInfo,
    hasMuzzleEffect: bool,
    hasShellClass: bool,
    isFpsCamera: bool)

  /**
   What `Fire` learns from the character holding the weapon: the slot, whether
   it is aiming down the sight, the locations of its ordinary camera and of its
   sight camera, and whether it is driven by a player controller.
   */
  datatype Holder = Holder(
    mode: WeaponMode,
    aimed: bool,
    hipEye: Vec3,
    sightEye: Vec3,
    playerControlled: bool)

  /**
   The engine's answers at the moment of a `Fire` call: the holder, absent when
   the owner is not a game character, and the shot direction the engine's
   random cone sampled around the eye direction.
   */
  datatype ShotEnv = ShotEnv(owner: Option<Holder>, direction: Vec3)

  /** The part of the weapon `Fire` changes. */
  datatype WeaponState = WeaponState(ammo: Ammo, lastFireTime: real)

  /** The effects a completed shot triggers, each named after the engine call it stands for. */
  datatype Effect =
    | SightTurn(eye: Vec3, traceEnd: Vec3)              // FPS camera turned to look from eye to trace end
    | MuzzleFlash                                       // muzzle emitter attached to the weapon mesh
    | ProjectileSpawn(traceEnd: Vec3, damage: real)     // projectile aimed from the muzzle at the trace end
    | ShellEject                                        // bullet shell spawned at the shell socket and thrown
    | CameraKick(yawBound: real, pitchDrawLow: real, pitchDrawHigh: real)
      // yaw input drawn from [-yawBound, yawBound]; pitch input the negation of a draw from [pitchDrawLow, pitchDrawHigh]
    | CameraShake                                       // the configured camera shake on the player's controller
    | ReloadRequest                                     // the holder is asked to begin a reload
    | FireSound                                         // the weapon's audio component plays

  /** The kinds of effect, in the order `Fire` triggers them. */
  datatype Kind = Sight | Muzzle | Projectile | Shell | Kick | Shake | Reload | Sound

  function KindOf(e: Effect): Kind {
    match e
    case SightTurn(_, _) => Sight
    case MuzzleFlash => Muzzle
    case ProjectileSpawn(_, _) => Projectile
    case ShellEject => Shell
    case CameraKick(_, _, _) => Kick
    case CameraShake => Shake
    case ReloadRequest => Reload
    case FireSound => Sound
  }

  /** The position of a kind in `Fire`'s order. */
  function Position(k: Kind): nat {
    match k
    case Sight => 0
    case Muzzle => 1
    case Projectile => 2
    case Shell => 3
    case Kick => 4
    case Shake => 5
    case Reload => 6
    case Sound => 7
  }

  function Rank(e: Effect): nat {
    Position(KindOf(e))
  }

  /** Each kind of effect appears at most once, and all in `Fire`'s order. */
  predicate Ordered(effects: seq<Effect>) {
    forall i, j :: 0 <= i < j < |effects| ==> Rank(effects[i]) < Rank(effects[j])
  }

  /** Some effect of kind `k` is in the list. */
  predicate Emits(effects: seq<Effect>, k: Kind) {
    exists e :: e in effects && KindOf(e) == k
  }

  /** An effect together with whether its condition holds on this shot. */
  datatype Gated = Gated(enabled: bool, effect: Effect)

  /** The enabled effects, in the order given. */
  function Select(candidates: seq<Gated>): seq<Effect> {
    if |candidates| == 0 then []
    else
      (if candidates[0].enabled then [candidates[0].effect] else []) + Select(candidates[1..])
  }

  /** The candidates are listed by kind, one per position, starting at position `base`. */
  predicate ListedByKind(candidates: seq<Gated>, base: nat) {
    forall k :: 0 <= k < |candidates| ==> Rank(candidates[k].effect) == base + k
  }

  /** The selection holds only effects ranked within the candidates' positions. */
  lemma {:induction false} SelectBounds(candidates: seq<Gated>, base: nat)
    requires ListedByKind(candidates, base)
    ensures forall e :: e in Select(candidates) ==> base <= Rank(e) < base + |candidates|
  {
    if |candidates| > 0 {
      ListedTail(candidates, base);
      SelectBounds(candidates[1..], base + 1);
    }
  }

  /** The selection holds only enabled candidates, each at the position of its kind. */
  lemma {:induction false} SelectSound(candidates: seq<Gated>, base: nat)
    requires ListedByKind(candidates, base)
    ensures forall e :: e in Select(candidates) ==>
      base <= Rank(e) < base + |candidates| && candidates[Rank(e) - base] == Gated(true, e)
  {
    if |candidates| > 0 {
      var tail := candidates[1..];
      ListedTail(candidates, base);
      SelectSound(tail, base + 1);
      SelectBounds(tail, base + 1);
      forall e | e in Select(candidates)
        ensures Rank(e) - base < |candidates| && candidates[Rank(e) - base] == Gated(true, e)
      {
        if e in Select(tail) {
          assert candidates[Rank(e) - base] == tail[Rank(e) - (base + 1)];
        }
      }
    }
  }

  /** Every enabled candidate is selected. */
  lemma {:induction false} SelectComplete(candidates: seq<Gated>)
    ensures forall k :: 0 <= k < |candidates| && candidates[k].enabled ==>
      candidates[k].effect in Select(candidates)
  {
    if |candidates| > 0 {
      var tail := candidates[1..];
      SelectComplete(tail);
      forall k | 0 <= k < |candidates| && candidates[k].enabled
        ensures candidates[k].effect in Select(candidates)
      {
        if k > 0 {
          assert candidates[k] == tail[k - 1];
        }
      }
    }
  }

  /** Selecting from candidates listed by kind keeps `Fire`'s order. */
  lemma {:induction false} SelectOrdered(candidates: seq<Gated>, base: nat)
    requires ListedByKind(candidates, base)
    ensures Ordered(Select(candidates))
  {
    if |candidates| > 0 {
      var tail := candidates[1..];
      ListedTail(candidates, base);
      SelectOrdered(tail, base + 1);
      SelectBounds(tail, base + 1);
      var rest := Select(tail);
      var head := if candidates[0].enabled then [candidates[0].effect] else [];
      var all := head + rest;
      assert Select(candidates) == all;
      forall i, j | 0 <= i < j < |all|
        ensures Rank(all[i]) < Rank(all[j])
      {
        assert all[j] == rest[j - |head|];
        assert rest[j - |head|] in rest;
        if i >= |head| {
          assert all[i] == rest[i - |head|];
        }
      }
    }
  }

  lemma ListedTail(candidates: seq<Gated>, base: nat)
    requires ListedByKind(candidates, base) && |candidates| > 0
    ensures ListedByKind(candidates[1..], base + 1)
  {
    forall k | 0 <= k < |candidates| - 1
      ensures Rank(candidates[1..][k].effect) == base + 1 + k
    {
      assert candidates[1..][k] == candidates[k + 1];
    }
  }

  /** A kind is emitted exactly when the candidate at its position is enabled. */
  lemma EmitsAt(candidates: seq<Gated>, k: Kind)
    requires ListedByKind(candidates, 0) && Position(k) < |candidates|
    ensures Emits(Select(candidates), k) <==> candidates[Position(k)].enabled
  {
    SelectSound(candidates, 0);
    SelectComplete(candidates);
    if candidates[Position(k)].enabled {
      assert KindOf(candidates[Position(k)].effect) == k;
      assert candidates[Position(k)].effect in Select(candidates);
    }
    if Emits(Select(candidates), k) {
      var e :| e in Select(candidates) && KindOf(e) == k;
      assert candidates[Rank(e)] == Gated(true, e);
    }
  }

  /** When the last candidate is enabled, the selection ends with it. */
  lemma LastSelected(candidates: seq<Gated>)
    requires ListedByKind(candidates, 0) && |candidates| > 0
    requires candidates[|candidates| - 1].enabled
    ensures var effects := Select(candidates);
      |effects| > 0 && effects[|effects| - 1] == candidates[|candidates| - 1].effect
  {
    var effects := Select(candidates);
    var final := candidates[|candidates| - 1].effect;
    SelectBounds(candidates, 0);
    SelectComplete(candidates);
    SelectOrdered(candidates, 0);
    assert final in effects;
    var p :| 0 <= p < |effects| && effects[p] == final;
    assert effects[|effects| - 1] in effects;
    assert Rank(effects[|effects| - 1]) <= Rank(final);
  }

  /** The result of one step: the new weapon state and the effects triggered, in order. */
  datatype Step = Step(state: WeaponState, effects: seq<Effect>)

  /** A step that changes nothing and triggers nothing. */
  function Idle(w: WeaponState): Step {
    Step(w, [])
  }

  /** The eye the shot is traced from: the sight camera when aiming, the ordinary camera otherwise. */
  function Eye(h: Holder): Vec3 {
    if h.aimed then h.sightEye else h.hipEye
  }

  /** The end point of the shot trace. */
  function TraceEnd(h: Holder, direction: Vec3): Vec3 {
    Plus(Eye(h), Scale(direction, TraceRange))
  }

  /** A call of `Fire` gets past both of its guards: ammunition remains and there is a holder. */
  predicate Completes(w: WeaponState, env: ShotEnv) {
    !BulletCheck(w.ammo) && env.owner.Some?
  }

  /**
   Every effect a completed shot may trigger, in `Fire`'s order, each with
   the condition under which `Fire` triggers it.
   */
  function Candidates(cfg: WeaponConfig, h: Holder, direction: Vec3, spend: Spend): seq<Gated> {
    var traceEnd := TraceEnd(h, direction);
    var info := cfg.info;
    [ Gated(cfg.isFpsCamera, SightTurn(Eye(h), traceEnd)),
      Gated(cfg.hasMuzzleEffect, MuzzleFlash),
      Gated(info.hasProjectileClass, ProjectileSpawn(traceEnd, info.baseDamage)),
      Gated(h.mode != SecondWeapon && cfg.hasShellClass, ShellEject),
      Gated(h.mode == MainWeapon, CameraKick(info.cameraSpread, -info.cameraSpreadDown, info.cameraSpread)),
      Gated(h.playerControlled, CameraShake),
      Gated(spend.reloadRequested, ReloadRequest),
      Gated(true, FireSound) ]
  }

  /** The effects a completed shot triggers, in order. */
  function ShotEffects(cfg: WeaponConfig, h: Holder, direction: Vec3, spend: Spend): seq<Effect> {
    Select(Candidates(cfg, h, direction, spend))
  }

  /**
   `Fire` at world time `now`. With no ammunition at all, or no holder, it
   does nothing. Otherwise it triggers its effects, spends a round (or asks
   for a reload when the magazine is empty), and records `now` as the last
   fire time.
   */
  function Fire(cfg: WeaponConfig, w: WeaponState, env: ShotEnv, now: real): (s: Step)
    ensures !Completes(w, env) ==> s == Idle(w)
    ensures Completes(w, env) ==> s.state.lastFireTime == now
    ensures Completes(w, env) ==> s.state.ammo.reserve == w.ammo.reserve
    ensures Completes(w, env) ==> Total(s.state.ammo) == Total(w.ammo) - (if w.ammo.loaded > 0 then 1 else 0)
    ensures Valid(w.ammo) ==> Valid(s.state.ammo)
  {
    if !Completes(w, env) then
      Idle(w)
    else
      var spend := BulletFire(w.ammo);
      Step(WeaponState(spend.ammo, now), ShotEffects(cfg, env.owner.value, env.direction, spend))
  }

  /**
   What a `Fire` call does to the weapon, apart from the effects: nothing when
   it is blocked or has no holder; otherwise a round spent from a non-empty
   magazine and `now` recorded as the last fire time.
   */
  function Advance(w: WeaponState, env: ShotEnv, now: real): WeaponState {
    if Completes(w, env) then WeaponState(BulletFire(w.ammo).ammo, now) else w
  }

  /** The state `Fire` leaves is `Advance`'s, whatever the configuration. */
  lemma FireAdvances(cfg: WeaponConfig, w: WeaponState, env: ShotEnv, now: real)
    ensures Fire(cfg, w, env, now).state == Advance(w, env, now)
  {
  }

  /**
   `Fire` is blocked by its ammunition check exactly when both counters are
   zero; a blocked or holderless call changes neither the counters nor the
   last fire time and triggers nothing.
   */
  lemma FireBlocked(cfg: WeaponConfig, w: WeaponState, env: ShotEnv, now: real)
    ensures Completes(w, env) <==> env.owner.Some? && !(w.ammo.loaded == 0 && w.ammo.reserve == 0)
    ensures !Completes(w, env) ==> Fire(cfg, w, env, now).effects == []
    ensures !Completes(w, env) ==> Fire(cfg, w, env, now).state == w
  {
  }

  /**
   On a completed shot each effect is triggered exactly under its own
   condition: the sight turn iff the weapon is the FPS-camera variant, the
   muzzle flash iff a muzzle effect is set, the projectile iff a projectile
   class is configured, the shell iff the weapon is not wielded as second
   weapon and a shell class is set, the camera kick iff it is wielded as main
   weapon, the camera shake iff a player controls the holder, the reload
   request iff the magazine was empty, and the fire sound always, last.
   */
  lemma FireEffectGating(cfg: WeaponConfig, w: WeaponState, env: ShotEnv, now: real)
    requires Completes(w, env)
    ensures Emits(Fire(cfg, w, env, now).effects, Sight) <==> cfg.isFpsCamera
    ensures Emits(Fire(cfg, w, env, now).effects, Muzzle) <==> cfg.hasMuzzleEffect
    ensures Emits(Fire(cfg, w, env, now).effects, Projectile) <==> cfg.info.hasProjectileClass
    ensures Emits(Fire(cfg, w, env, now).effects, Shell) <==>
      env.owner.value.mode != SecondWeapon && cfg.hasShellClass
    ensures Emits(Fire(cfg, w, env, now).effects, Kick) <==> env.owner.value.mode == MainWeapon
    ensures Emits(Fire(cfg, w, env, now).effects, Shake) <==> env.owner.value.playerControlled
    ensures Emits(Fire(cfg, w, env, now).effects, Reload) <==> w.ammo.loaded <= 0
    ensures Emits(Fire(cfg, w, env, now).effects, Sound)
  {
    var spend := BulletFire(w.ammo);
    assert Fire(cfg, w, env, now).effects == ShotEffects(cfg, env.owner.value, env.direction, spend);
    ShotEffectsByConfig(cfg, env.owner.value, env.direction, spend);
    ShotEffectsByHolder(cfg, env.owner.value, env.direction, spend);
  }

  /** The gating of `FireEffectGating` for the effects the configuration decides. */
  lemma ShotEffectsByConfig(cfg: WeaponConfig, h: Holder, direction: Vec3, spend: Spend)
    ensures Emits(ShotEffects(cfg, h, direction, spend), Sight) <==> cfg.isFpsCamera
    ensures Emits(ShotEffects(cfg, h, direction, spend), Muzzle) <==> cfg.hasMuzzleEffect
    ensures Emits(ShotEffects(cfg, h, direction, spend), Projectile) <==> cfg.info.hasProjectileClass
    ensures Emits(ShotEffects(cfg, h, direction, spend), Sound)
  {
    var c := Candidates(cfg, h, direction, spend);
    assert ShotEffects(cfg, h, direction, spend) == Select(c);
    assert ListedByKind(c, 0);
    EmitsAt(c, Sight);
    EmitsAt(c, Muzzle);
    EmitsAt(c, Projectile);
    EmitsAt(c, Sound);
  }

  /** The gating of `FireEffectGating` for the effects the holder and the magazine decide. */
  lemma ShotEffectsByHolder(cfg: WeaponConfig, h: Holder, direction: Vec3, spend: Spend)
    ensures Emits(ShotEffects(cfg, h, direction, spend), Shell) <==> h.mode != SecondWeapon && cfg.hasShellClass
    ensures Emits(ShotEffects(cfg, h, direction, spend), Kick) <==> h.mode == MainWeapon
    ensures Emits(ShotEffects(cfg, h, direction, spend), Shake) <==> h.playerControlled
    ensures Emits(ShotEffects(cfg, h, direction, spend), Reload) <==> spend.reloadRequested
  {
    var c := Candidates(cfg, h, direction, spend);
    assert ShotEffects(cfg, h, direction, spend) == Select(c);
    assert ListedByKind(c, 0);
    EmitsAt(c, Shell);
    EmitsAt(c, Kick);
    EmitsAt(c, Shake);
    EmitsAt(c, Reload);
  }

  /**
   The effects of a completed shot come in `Fire`'s order, each kind at most
   once, and the fire sound is the last of them.
   */
  lemma FireEffectOrder(cfg: WeaponConfig, w: WeaponState, env: ShotEnv, now: real)
    requires Completes(w, env)
    ensures Ordered(Fire(cfg, w, env, now).effects)
    ensures var effects := Fire(cfg, w, env, now).effects;
      |effects| > 0 && effects[|effects| - 1] == FireSound
  {
    var c := Candidates(cfg, env.owner.value, env.direction, BulletFire(w.ammo));
    assert Fire(cfg, w, env, now).effects == Select(c);
    SelectOrdered(c, 0);
    LastSelected(c);
  }

  /**
   The payload of the shot: a projectile flies at the trace end `TraceRange` units
   along the sampled direction from the holder's current eye, and carries the
   configured base damage.
   */
  lemma FireProjectileAim(cfg: WeaponConfig, w: WeaponState, env: ShotEnv, now: real, e: Effect)
    requires Completes(w, env)
    requires e in Fire(cfg, w, env, now).effects && e.ProjectileSpawn?
    ensures e.damage == cfg.info.baseDamage
    ensures e.traceEnd == Plus(Eye(env.owner.value), Scale(env.direction, TraceRange))
  {
    var c := Candidates(cfg, env.owner.value, env.direction, BulletFire(w.ammo));
    assert Fire(cfg, w, env, now).effects == Select(c);
    SelectSound(c, 0);
  }

  /**
   The sight turn makes the FPS camera look from the holder's current eye at
   the trace end, `TraceRange` units along the sampled direction.
   */
  lemma FireSightTurn(cfg: WeaponConfig, w: WeaponState, env: ShotEnv, now: real, e: Effect)
    requires Completes(w, env)
    requires e in Fire(cfg, w, env, now).effects && e.SightTurn?
    ensures e.eye == Eye(env.owner.value)
    ensures e.traceEnd == Plus(Eye(env.owner.value), Scale(env.direction, TraceRange))
  {
    var c := Candidates(cfg, env.owner.value, env.direction, BulletFire(w.ammo));
    assert Fire(cfg, w, env, now).effects == Select(c);
    SelectSound(c, 0);
  }

  /**
   The camera kick carries the bounds `ShakeCamera` draws from: a yaw input
   within plus or minus `CameraSpread`, and a pitch input that is the negation
   of a draw from `-CameraSpreadDown` to `CameraSpread`.
   */
  lemma FireCameraKick(cfg: WeaponConfig, w: WeaponState, env: ShotEnv, now: real, e: Effect)
    requires Completes(w, env)
    requires e in Fire(cfg, w, env, now).effects && e.CameraKick?
    ensures e == CameraKick(cfg.info.cameraSpread, -cfg.info.cameraSpreadDown, cfg.info.cameraSpread)
  {
    var c := Candidates(cfg, env.owner.value, env.direction, BulletFire(w.ammo));
    assert Fire(cfg, w, env, now).effects == Select(c);
    SelectSound(c, 0);
  }

  /**
   With an empty magazine but rounds in reserve the shot still goes out with
   its effects, asks the holder to reload, and spends nothing.
   */
  lemma FireOnEmptyMagazine(cfg: WeaponConfig, w: WeaponState, env: ShotEnv, now: real)
    requires w.ammo.loaded == 0 && w.ammo.reserve > 0 && env.owner.Some?
    ensures ReloadRequest in Fire(cfg, w, env, now).effects
    ensures FireSound in Fire(cfg, w, env, now).effects
    ensures Fire(cfg, w, env, now).state == WeaponState(w.ammo, now)
  {
    var c := Candidates(cfg, env.owner.value, env.direction, BulletFire(w.ammo));
    assert Fire(cfg, w, env, now).effects == Select(c);
    SelectComplete(c);
    assert c[6].enabled && c[7].enabled;
  }

  /**
   `FireOfDelay`: calls `Fire` when the weapon has never fired (last fire time
   0) or strictly more than `DelayOfShotgun` seconds have passed since the
   last shot; otherwise does nothing.
   */
  function FireOfDelay(cfg: WeaponConfig, w: WeaponState, env: ShotEnv, now: real): (s: Step)
    ensures w.lastFireTime != 0.0 && now - w.lastFireTime <= cfg.info.delayOfShotgun ==> s == Idle(w)
    ensures w.lastFireTime == 0.0 ==> s == Fire(cfg, w, env, now)
    ensures w.lastFireTime != 0.0 && now - w.lastFireTime > cfg.info.delayOfShotgun ==>
      s == Fire(cfg, w, env, now)
  {
    if DelayGateOpen(w.lastFireTime, now, cfg.info.delayOfShotgun) then Fire(cfg, w, env, now) else Idle(w)
  }

  /**
   After a shot completed at a non-zero time `t1`, a `FireOfDelay` at `t2` no
   more than `DelayOfShotgun` later does nothing, whatever the engine reports.
   */
  lemma DelayedFireSpacing(cfg: WeaponConfig, w: WeaponState, env1: ShotEnv, t1: real, env2: ShotEnv, t2: real)
    requires Completes(w, env1) && t1 != 0.0
    requires t2 - t1 <= cfg.info.delayOfShotgun
    ensures var s1 := Fire(cfg, w, env1, t1);
      FireOfDelay(cfg, s1.state, env2, t2) == Idle(s1.state)
  {
  }

  /**
   The never-fired value 0 is also the time of a shot completed at world time
   0, so after such a shot the gate is open again at once.
   */
  lemma DelayedFireAtTimeZero(cfg: WeaponConfig, w: WeaponState, env1: ShotEnv, env2: ShotEnv, t2: real)
    requires Completes(w, env1)
    ensures var s1 := Fire(cfg, w, env1, 0.0);
      FireOfDelay(cfg, s1.state, env2, t2) == Fire(cfg, s1.state, env2, t2)
  {
  }
}
